=== FILE: README.md ===
# Browser code editor: edit rules and tab session, in Dafny

This project models the two pieces of logic in an in-browser code editor
that carry invariants:

- **Edit rules of the editor component** (`src/components/CodeEditor.tsx`).
  When a change event leaves an opening bracket `(`, `{` or `[` just
  before the caret, and the last key pressed was not `"Backspace"`, the
  matching closer is spliced in at the caret. The selection stays where it
  was, so the caret sits between the two brackets. The Tab key with a caret
  (no range) inserts `tabSize` spaces (two by default) and moves the caret
  past them. The textarea the component writes to becomes a returned
  `TextAreaState`. Every call of the host's `onValueChange` becomes an
  entry of an `emitted` list.
- **Tab session of the home page** (`src/app/page.tsx`). The page's React
  state becomes one immutable `Session` value. It holds the tab list, the
  index believed to hold the active tab, the editor's working copy of that
  tab, and the conflict-dialog flag. Each handler is a function from
  session to session: `activateTab`, `saveActiveTabChanges`,
  `handleOnTabPress`, `handleAddNewTabClick` and `handleTabClose`. So is
  each effect: the index effect, the "no tab active → activate tab 0"
  repair and the mount effect. The `On…` functions chain a handler with
  the effects that its state changes trigger.

Files and modules:

| file | module | models |
|---|---|---|
| `wrappers.dfy` | `Wrappers` | `Option`, for `undefined` and `??` |
| `text.dfy` | `Text` | the JavaScript string operations used: `charAt`, `repeat`, `indexOf`, `split`/`join`, clamped `substring` |
| `code_editor.dfy` | `CodeEditor` | the brackets map, `onChange`, `onKeyDown` |
| `tabs.dfy` | `Tabs` | the `Tab` record of the tab bar and the list operations (`findIndex`, `filter`, `split(".")[1]`) |
| `page.dfy` | `Page` | the session as the page's code leaves it |
| `page_fixed.dfy` | `PageFixed` | the defects under "Findings", shown on `Page`; the corrected create and close; the invariant over any run of user events |

The central invariant is `Page.Valid`:
- `activeIdx` is a position of the list, and the tab there is the only
  active tab.
- Names are unique, ids are unique, and display orders increase along the
  list.
- The working copy differs from the tab at `activeIdx` at most in its
  content.

Press, create, edit and dismiss keep `Valid` as the code is written. Close
does not (see "Findings"). `PageFixed.EveryRunIsSound` proves that the
corrected session keeps `Valid` (or is empty) after any sequence of user
events, starting from the mounted page.

### Behaviour worth knowing

- Auto-close is suppressed only after the exact key `"Backspace"`. After
  `"Delete"`, or any other key, an opener before the caret still gets its
  closer (`CodeEditor.OnlyBackspaceSuppresses`).
- Backspace followed by typing `(` does insert the closer: the `(`
  key-down replaces the remembered key. Only the change event caused by
  the Backspace itself is left alone (`CodeEditor.BackspaceThenOpener`).
- The language of a new file is `split(".")[1]`, the piece between the
  first and the second dot, not everything after the first dot
  (`Tabs.Language`, `Tabs.LanguageStopsAtSecondDot`).
- A new tab's order is the last tab's order + 1. This is the largest
  order + 1, because orders increase along the list (`Tabs.LastOrderIsMax`,
  and `OrdersIncreasing` inside `Page.Valid`).
- A press on an id that no tab holds is silently ignored (`Page.OnTabPress`).
- Closing the active tab activates the first remaining tab only through
  the "no tab active" repair effect, and that effect can throw (see
  "Findings").
- Indentation is always spaces; there is no tab-character variant.

## Model

| member | source | states |
|---|---|---|
| `Text.CharAt` | src/components/CodeEditor.tsx:71 | `charAt(i)` is the one unit at `i` when `i` is a position of the string, and the empty string otherwise, negative `i` included |
| `Text.Clamp` | src/components/CodeEditor.tsx:104-106 | the index `substring` uses: an index within the string is kept, an index past the end becomes the length |
| `Text.IndexOf` | src/app/page.tsx:123 | the first position of the separator, with none before it, or -1 exactly when it does not occur; `split` cuts there |
| `Text.Split` | src/app/page.tsx:123 | `split` on one separator gives at least one piece, no piece holds the separator, and there are two or more pieces exactly when the separator occurs |
| `Text.JoinSplit` | src/app/page.tsx:123 | joining the pieces of a split with the separator gives back the file name |
| `Text.SplitJoin` | src/app/page.tsx:123 | splitting a join of separator-free pieces gives back those pieces |
| `Text.SplitSecondPosition` | src/app/page.tsx:123 | piece 1 of a split starts right after the first separator, holds no separator, and ends at the next separator or at the end |
| `Text.Repeat` | src/components/CodeEditor.tsx:102 | `" ".repeat(n)` has length `n` and every unit is a space |
| `Tabs.Language` | src/app/page.tsx:123 | `fileName.split(".")[1]` sits right after the first dot of the name, contains no dot, and is followed by a dot or by the end of the name |
| `Tabs.LanguageOf` | src/app/page.tsx:123 | converse: in `base.lang` followed by nothing or by a dotted part, the language is exactly `lang` |
| `Tabs.LanguageStopsAtSecondDot` | src/app/page.tsx:123 | the language of `util.test.ts` is `test`, not `test.ts` |
| `Tabs.LanguageOfPlainName` | src/app/page.tsx:123 | the language of `a.ts` is `ts` |
| `Tabs.LanguageAfterTrailingDot` | src/app/page.tsx:123 | the language of `notes.` is the empty string |
| `Tabs.FindIndexById` | src/app/page.tsx:102 | `findIndex` gives the first position holding the id, or -1 exactly when no tab holds it |
| `Tabs.RemoveId` | src/app/page.tsx:134-139 | the filtered list holds exactly the tabs of the old list whose id differs |
| `Tabs.RemoveIdConcat` | src/app/page.tsx:134-139 | filtering works piece by piece on a concatenation, so survivors keep their relative order |
| `Tabs.RemoveAbsentId` | src/app/page.tsx:134-139 | closing an id that no tab holds leaves the list unchanged |
| `Tabs.RemoveUniqueId` | src/app/page.tsx:134-139 | with unique ids, closing a tab's id removes exactly that one position |
| `Tabs.RemoveIdKeepsOrders` | src/app/page.tsx:134-139 | filtering keeps display orders increasing; survivors keep their `order` |
| `Tabs.RemoveIdKeepsNames` | src/app/page.tsx:134-139 | filtering keeps names unique |
| `Tabs.RemoveIdKeepsIds` | src/app/page.tsx:134-139 | filtering keeps ids unique |
| `Tabs.LastOrderIsMax` | src/app/page.tsx:125 | when orders increase, every tab before the last has a smaller order than the last, so "last + 1" is "largest + 1" |
| `Tabs.ExactlyOneActive` | src/app/page.tsx:84-90 | "the tab at `k` is the only active one" is the same as "the set of active positions is `{k}`" |
| `CodeEditor.Fires` | src/components/CodeEditor.tsx:71-74 | the rule fires exactly when `charAt(selectionStart - 1)` is non-empty, is a key of the brackets map, and the last key is not `"Backspace"` |
| `CodeEditor.AutoClose` | src/components/CodeEditor.tsx:70-79 | when the unit before the caret is an opening bracket and the last key is not `"Backspace"`, the result is the text before the caret, the partner closer from the brackets map, then the rest, one unit longer; otherwise the text is unchanged (caret at 0 included) |
| `CodeEditor.AutoCloseUndo` | src/components/CodeEditor.tsx:74-79 | the result differs from the typed text exactly when the rule fires, and deleting the unit at the caret gives back the typed text |
| `CodeEditor.AutoClosePairs` | src/components/CodeEditor.tsx:43-47 | after auto-close, opener and closer are adjacent around the caret and form one of the pairs `()`, `{}`, `[]` |
| `CodeEditor.OnlyBackspaceSuppresses` | src/components/CodeEditor.tsx:74 | after an opening bracket, the text is left unchanged exactly when the last key is `"Backspace"` |
| `CodeEditor.OnChange` | src/components/CodeEditor.tsx:68-89 | a change event keeps `selectionStart`/`selectionEnd`, adds the closer when the rule fires (length + 1), leaves the textarea alone otherwise, and emits the resulting text exactly once |
| `CodeEditor.OnKeyDown` | src/components/CodeEditor.tsx:91-116 | every key becomes the last key; Tab with a caret yields prefix + `tabSize` spaces (2 when unset) + suffix of the host's value, grows it by `tabSize`, puts both selection ends at `selectionStart + tabSize` and emits once; Tab with a range, or any other key, changes nothing and emits nothing |
| `CodeEditor.TabIndentUndo` | src/components/CodeEditor.tsx:99-112 | the inserted units are all spaces, and removing them gives back the host's value |
| `CodeEditor.EmptyBufferPairs` | src/components/CodeEditor.tsx:71-85 | typing `(`, `{` or `[` into an empty buffer gives `()`, `{}` or `[]` with the caret at 1 |
| `CodeEditor.BackspaceThenOpener` | src/components/CodeEditor.tsx:74-93 | the change caused by a Backspace is not auto-closed, but an opener typed after it is |
| `CodeEditor.TabBetween` | src/components/CodeEditor.tsx:99-112 | Tab between the units of `ab` gives `a  b` with the caret at 3 |
| `Page.InitialTabs` | src/app/page.tsx:34-59 | the page starts with three tabs, and only the first is active |
| `Page.Initial` | src/app/page.tsx:34-63 | before mounting there is no index (-1), no working copy and no dialog; the three names are distinct, the orders increase, the first tab is the only active one, and the ids are distinct when the generated ids are |
| `Page.Mount` | src/app/page.tsx:65-75 | mounting points the index at the first active tab; if there is one, the list is unchanged and that tab becomes the working copy; if there is none, the index is -1 and there is no working copy |
| `Page.FindActiveIndex` | src/app/page.tsx:66 | `findIndex(t => t.active)` gives the first active position, or -1 exactly when no tab is active |
| `Page.MountedIsValid` | src/app/page.tsx:34-75 | after the mount effects the session is valid, the first tab is active and is the working copy, and no conflict is shown |
| `Page.ActivateTab` | src/app/page.tsx:84-90 | afterwards `activeIdx` is `idx` and `tabs[idx]` is active; only active flags change; when the invariant held before, `idx` is the only active position |
| `Page.SaveActiveTabChanges` | src/app/page.tsx:92-98 | the working copy, when there is one, is written into slot `activeIdx` and nothing else changes; validity is kept and the slot then equals the working copy |
| `Page.ActiveIdxEffect` | src/app/page.tsx:69-75 | an in-range index gets its tab marked active and loaded into the working copy; an out-of-range index clears the working copy |
| `Page.NoActiveRepair` | src/app/page.tsx:77-82 | when no tab is active, tab 0 becomes the only active tab at index 0, with the working copy and the conflict flag unchanged; otherwise nothing changes |
| `Page.HandleOnTabPress` | src/app/page.tsx:100-110 | an unknown id changes nothing; a known id first has the working copy written into slot `activeIdx`, then the pressed tab is activated: slot `activeIdx` holds the working copy (or its old tab when there is none) up to its flag and is inactive unless it is the pressed slot, the pressed slot is active, and every other slot is unchanged |
| `Page.OnTabPress` | src/app/page.tsx:100-110 | from a valid session a press of a known id leaves a valid session with the pressed tab active, the earlier edits saved into the previously active slot, and the pressed tab as the working copy |
| `Page.NewTab` | src/app/page.tsx:119-126 | the tab to append: the fresh id, the name, the language `split(".")[1]`, the starter content, inactive, with order one more than the last tab's, which keeps orders increasing when they already do |
| `Page.HandleAddNewTabClick` | src/app/page.tsx:112-131 | an exact-match name only opens the conflict dialog; otherwise one tab is appended (fresh id, the name, `split(".")[1]`, last order + 1, the starter content) and activated; among the earlier tabs only slot `activeIdx` changes, losing its active flag, and none changes when the index equals the old length; the invariants hold when they held; a stale index equal to the length is accepted, because the push makes it a position |
| `Page.AppendThenActivate` | src/app/page.tsx:119-130 | appending a tab with a new name, a new id and an order past the last, then activating it, keeps unique names and ids, increasing orders and the single active tab |
| `Page.OnAddNewTab` | src/app/page.tsx:112-131 | a conflicting name leaves tabs, index and working copy unchanged and raises the conflict flag; otherwise the result is valid, earlier tabs are unchanged except that the old active one is deactivated, and the new tab is last with an order above all others and is the working copy |
| `Page.CreateOnStaleIndex` | src/app/page.tsx:69-131 | with the index equal to the length of the list, create appends the new tab active, leaves every earlier tab as it was (an active one stays active), and keeps the index and the working copy |
| `Page.HandleTabClose` | src/app/page.tsx:133-142 | the list keeps exactly the tabs whose id differs; an absent id changes nothing; index and working copy are untouched; orders, names and ids stay in shape |
| `Page.OnTabClose` | src/app/page.tsx:133-142 | the list is the filtered list, possibly with tab 0 activated by the repair; when an active tab survives, index and working copy are unchanged; when none survives, tab 0 becomes the only active tab, at index 0, and the working copy is the old one if the index was already 0 and tab 0 otherwise; the conflict flag never changes |
| `Page.EditActive` | src/app/page.tsx:161-162 | typed text replaces only the working copy's content, so the working copy still belongs to the active tab |
| `Page.DismissConflict` | src/app/page.tsx:154 | closing the conflict dialog clears the flag and nothing else |
| `PageFixed.CreateDropsEdits` | src/app/page.tsx:112-131 | as written, after a create the old active tab still holds its stored content and the working copy is the new file, so unsaved edits are gone |
| `PageFixed.CreateDropsEditsExample` | src/app/page.tsx:112-131 | edit the starter tab to `new`, create `a.ts`: the starter tab still holds `old` |
| `PageFixed.OnAddNewTabFixed` | src/app/page.tsx:112-131 | corrected create (save first): keeps the session sound, blocks conflicting names the same way, and on a valid session with a free name adds exactly one tab while the edited tab keeps the working copy's text |
| `PageFixed.SaveThenCreate` | src/app/page.tsx:92-131 | saving and then creating gives a valid session with the new tab last, its name, language, starter content and an order above all others, and the old active slot holding the saved edits |
| `PageFixed.SaveKeepsNamesAndIds` | src/app/page.tsx:92-98 | saving the working copy of a valid session changes no name and no id, so the conflict check sees the same names |
| `PageFixed.CloseBeforeActiveDesyncs` | src/app/page.tsx:133-142 | as written, closing a tab that sits before the active one leaves `activeIdx` pointing at a tab that is not active, or past the end |
| `PageFixed.CloseBeforeActiveLosesTab` | src/app/page.tsx:100-142 | press `Header.tsx`, close `page.tsx`, press `Tabs.tsx`: the list becomes two active copies of `Header.tsx` |
| `PageFixed.PressSecondTab` | src/app/page.tsx:100-110 | first step of that run: pressing the second tab makes it active and loads it |
| `PageFixed.CloseFirstTab` | src/app/page.tsx:133-142 | second step: the first tab goes, but the index stays 1 and the working copy stays |
| `PageFixed.PressStaleSlot` | src/app/page.tsx:92-110 | last step: the stale working copy is written over the pressed tab |
| `PageFixed.PressThirdTab` | src/app/page.tsx:100-110 | from the mounted page, pressing `Tabs.tsx` makes it the only active tab, at index 2, and the working copy |
| `PageFixed.CloseActiveFirstTab` | src/app/page.tsx:133-142 | from the mounted page, closing the active `page.tsx` leaves `Header.tsx` active at index 0 while the working copy is still `page.tsx` |
| `PageFixed.CloseMountedPage` | src/app/page.tsx:133-142 | the close handler alone removes `page.tsx` from the mounted page and leaves index 0 and the working copy as they were |
| `PageFixed.PressAfterActiveClose` | src/app/page.tsx:92-110 | pressing `Tabs.tsx` then writes the stale `page.tsx` over slot 0: the list becomes `page.tsx`, `Tabs.tsx` and `Header.tsx` is gone |
| `PageFixed.MountedStart` | src/app/page.tsx:65-67 | mounting the three starter tabs loads `page.tsx`, active at index 0 |
| `PageFixed.CloseFirstTabPastEnd` | src/app/page.tsx:133-142 | closing `page.tsx` then leaves two tabs with the index still 2, one past the end, and the working copy still set |
| `PageFixed.CreateAtStaleIndex` | src/app/page.tsx:112-131 | creating `a.ts` there leaves `Tabs.tsx` and `a.ts` both active, and the working copy still `Tabs.tsx` |
| `PageFixed.CloseLastActiveThrows` | src/app/page.tsx:77-90 | as written, closing the active tab when it is last in the list leaves no active tab and an out-of-range index, so the repair's `activateTab(0)` throws |
| `PageFixed.OnTabCloseFixed` | src/app/page.tsx:133-142 | corrected close keeps the session sound |
| `PageFixed.CloseAt` | src/app/page.tsx:133-142 | corrected close of position `k`: sound, and the list without position `k` apart from active flags |
| `PageFixed.CloseFixedFilters` | src/app/page.tsx:133-142 | the corrected list is the filtered list apart from active flags, and an absent id changes nothing |
| `PageFixed.CloseFixedKeepsActive` | src/app/page.tsx:133-142 | closing another tab keeps the list filtered, the active tab active and its unsaved edits in the working copy |
| `PageFixed.CloseFixedActivatesFirst` | src/app/page.tsx:77-82 | closing the active tab while others remain makes the first survivor the active tab and the working copy |
| `PageFixed.CloseFixedLastTab` | src/app/page.tsx:133-142 | closing the only tab empties the session |
| `PageFixed.Step` | src/app/page.tsx:100-162 | any user event keeps the corrected session sound |
| `PageFixed.Run` | src/app/page.tsx:100-162 | any sequence of user events keeps the corrected session sound |
| `PageFixed.EveryRunIsSound` | src/app/page.tsx:34-162 | from the mounted page, every run leaves unique names and ids, increasing orders and, unless empty, exactly one active tab, at `activeIdx` |

## Left out

- Rendering is not modelled: `EditorScreen`, the `Highlight` tokenizer
  (a foreign library), the styles and the tab bar's markup are
  presentation.
- The DOM is not modelled. `updateTextAreaState` and `preventDefault`
  become the returned `TextAreaState`. The browser's own edit, which
  produces the change event's value and selection, is an input.
- React scheduling is made explicit. Effects are ordinary functions, run
  by the `On…` functions when their dependency changes. A handler that
  mutates the array in place and passes the same array to `setTabs` does
  not trigger the list effect; `filter` in close makes a new array, so
  only close runs the repair.
- `currState` is recreated on every render of the editor, which resets
  the last key to `""`. The model takes the last key of the change event
  as an input and does not model that reset.
- `Page.Mount`: runs only the index effect on mount, not the list effect
  (page.tsx:77-82) that React also runs then. On the hard-coded starter
  list (page.tsx:34-59) tab 0 is active, so that effect does nothing;
  on a list with no active tab it would call `activateTab(0)` with index
  -1 and throw, whereas `Mount` returns index -1 and no working copy.
- JavaScript object sharing is not modelled. An unedited working copy is
  the same object as its tab in the list; the model treats it as a
  separate value. The runs proved here end the same way under either
  reading.
- `nanoid` is not modelled. A fresh id is a parameter, with a
  precondition that no tab holds it. In `PageFixed.Step`, a create whose
  id is already in use is ignored.
- The dialogs are not modelled. The only logic is the "name contains a
  dot" gate in `src/components/CreateNewFileDialog.tsx`. It is a
  precondition of create. In `PageFixed.Step`, a name without a dot is
  ignored, because the dialog never hands it over.
- The starter program of the first tab is a parameter rather than a
  copy of its text. The starter content of new files is a constant.
- `CodeEditor.OnKeyDown`: `tabSize` is a natural number. A negative
  `tabSize` (which makes `repeat` throw) and a fractional one (which
  `repeat` truncates) are not modelled.
- `Page.SaveActiveTabChanges`: requires `activeIdx` to be a position of
  the list when there is a working copy. A close can leave the index equal
  to the length while a working copy is set (`PageFixed.CloseFirstTabPastEnd`).
  The JavaScript write then stretches the array by one slot and does not
  throw. An index further past the end, after two such closes, leaves
  holes in the array. Modelling either needs object identity, because the
  working copy may be the very object stored in another slot and the
  following `activateTab` writes through it. The model has values only.
- `Page.HandleOnTabPress`: leaves out the press of a known id while the
  index equals the length of the list and a working copy is set. In the
  code the save stretches the array, so the press goes through and leaves
  the working copy's tab in the list twice; how the active flags end up
  depends on object identity, which the model does not have.
- `Page.OnTabPress`: leaves out the same stale-index press, for the same
  reason.
- The crash paths are preconditions. `activateTab` with an index outside
  the list, reading the last tab of an empty list in create, and the
  repair on a list whose stale index is out of range (`Page.CloseDefined`)
  all throw.
- Positions count Unicode code points (`char`), where `selectionStart`
  and `substring` count UTF-16 code units. A character outside the Basic
  Multilingual Plane before the caret is one `char` here and two units in
  the browser, and a lone surrogate cannot be represented at all.
- `PageFixed.OnAddNewTabFixed`: in an empty session, which only the
  corrected close can produce, the new tab gets order 1, like the first
  of the starting tabs.

## Findings

| source | as written | input that shows it | evidently intended | confidence | as-written member | corrected member |
|---|---|---|---|---|---|---|
| src/app/page.tsx:112-131 | create activates the new tab without first saving the working copy; the index effect then overwrites the working copy with the new tab | edit the first tab, then create `a.ts`: the first tab still holds its old text and the edit is gone | save the working copy before switching, as a tab press does (line 108) | medium, not executed | `PageFixed.CreateDropsEdits` | `PageFixed.OnAddNewTabFixed` |
| src/app/page.tsx:133-142 | close filters the list but leaves `activeTabIdx` and the working copy unchanged | press `Header.tsx`, close `page.tsx`, press `Tabs.tsx`: `Tabs.tsx` disappears and `Header.tsx` appears twice, both active. Also: press `Tabs.tsx`, close `page.tsx`, create `a.ts`: two tabs are active (`PageFixed.CreateAtStaleIndex`). Also: close `page.tsx` right after mounting, then press `Tabs.tsx`: `Header.tsx` is gone and `page.tsx` is back (`PageFixed.CloseActiveFirstTab`, `PageFixed.PressAfterActiveClose`) | the index and the working copy follow the active tab | high, not executed | `PageFixed.CloseBeforeActiveLosesTab` | `PageFixed.OnTabCloseFixed` |
| src/app/page.tsx:77-90 | after a close, the repair calls `activateTab(0)`, which writes through the stale `activeTabIdx` | close the active tab when it is last in the list, or close the only tab: `tabs[activeTabIdx]` is undefined and setting `.active` on it throws | activate the first remaining tab, or leave an empty session | high, not executed | `PageFixed.CloseLastActiveThrows` | `PageFixed.OnTabCloseFixed` |

=== FILE: code_editor.dfy ===
/** The edit rules of the code editor component: closing brackets inserted
    on change, and spaces inserted for the Tab key. The DOM textarea is the
    `TextAreaState` value these functions return; `emitted` lists the texts
    handed to the host's `onValueChange` callback, in call order. */
module CodeEditor {
  import opened Wrappers
  import opened Text

  /** The opening brackets that are closed automatically, with their closers.
      Quotes are deliberately absent. */
  const Brackets: map<char, char> := map['(' := ')', '{' := '}', '[' := ']']

  /** The text, caret and selection the textarea shows. */
  datatype TextAreaState = TextAreaState(value: string, selectionStart: nat, selectionEnd: nat)

  /** What a change event leaves behind: the textarea, and the texts emitted upward. */
  datatype ChangeOutcome = ChangeOutcome(area: TextAreaState, emitted: seq<string>)

  /** What a key-down event leaves behind: the remembered key, the textarea,
      and the texts emitted upward. */
  datatype KeyOutcome = KeyOutcome(lastKey: string, area: TextAreaState, emitted: seq<string>)

  const DefaultTabSize: nat := 2

  /** The auto-close rule fires when the unit just before the caret is an
      opening bracket and the most recent key was not exactly "Backspace".
      This is the guard of the change handler: `charAt(selectionStart - 1)`
      is non-empty (so the caret is not at 0), it is a key of the brackets
      map, and the last key differs from "Backspace". */
  function Fires(text: string, selStart: nat, lastKey: string): (b: bool)
    ensures b <==>
      var lastChar := CharAt(text, selStart - 1);
      lastChar != "" && lastChar[0] in Brackets && lastKey != "Backspace"
  {
    0 < selStart <= |text| && text[selStart - 1] in Brackets && lastKey != "Backspace"
  }

  /** The text after a change event: the matching closer spliced in at the
      caret when the rule fires, the text as typed otherwise. */
  function AutoClose(text: string, selStart: nat, lastKey: string): (r: string)
    ensures Fires(text, selStart, lastKey) ==>
      |r| == |text| + 1 &&
      r[..selStart] == text[..selStart] &&
      r[selStart] == Brackets[text[selStart - 1]] &&
      r[selStart + 1..] == text[selStart..]
    ensures !Fires(text, selStart, lastKey) ==> r == text
  {
    var lastChar := CharAt(text, selStart - 1);
    if lastChar != "" && lastChar[0] in Brackets && lastKey != "Backspace" then
      text[..selStart] + [Brackets[lastChar[0]]] + text[selStart..]
    else
      text
  }

  /** A change event: the rule above applied to the textarea's new value;
      the selection stays where the browser put it (so the caret sits between
      opener and closer), and the resulting text is emitted exactly once. */
  function OnChange(area: TextAreaState, lastKey: string): (o: ChangeOutcome)
    ensures o.area.selectionStart == area.selectionStart
    ensures o.area.selectionEnd == area.selectionEnd
    ensures o.emitted == [o.area.value]
    ensures Fires(area.value, area.selectionStart, lastKey) ==>
      |o.area.value| == |area.value| + 1 &&
      o.area.value == area.value[..area.selectionStart]
                      + [Brackets[area.value[area.selectionStart - 1]]]
                      + area.value[area.selectionStart..]
    ensures !Fires(area.value, area.selectionStart, lastKey) ==> o.area == area
  {
    var text := AutoClose(area.value, area.selectionStart, lastKey);
    ChangeOutcome(TextAreaState(text, area.selectionStart, area.selectionEnd), [text])
  }

  /** A key-down event. Every key is remembered as the last key. The Tab key
      with a caret replaces the caret position of the host's `value` with
      `tabSize` spaces (two when unset) and moves the caret past them; with a
      range selected, or for any other key, nothing changes and nothing is
      emitted. */
  function OnKeyDown(key: string, area: TextAreaState, value: string, tabSize: Option<nat>): (o: KeyOutcome)
    ensures o.lastKey == key
    ensures key == "Tab" && area.selectionStart == area.selectionEnd ==>
      var n := tabSize.GetOr(DefaultTabSize);
      var s := Clamp(area.selectionStart, value);
      && o.area.value == value[..s] + Repeat(' ', n) + value[s..]
      && |o.area.value| == |value| + n
      && o.area.selectionStart == o.area.selectionEnd == area.selectionStart + n
      && o.emitted == [o.area.value]
    ensures key != "Tab" || area.selectionStart != area.selectionEnd ==>
      o.area == area && o.emitted == []
  {
    if key == "Tab" && area.selectionStart == area.selectionEnd then
      var n := tabSize.GetOr(DefaultTabSize);
      var tabValue := Repeat(' ', n);
      var newValue := value[..Clamp(area.selectionStart, value)] + tabValue
                      + value[Clamp(area.selectionEnd, value)..];
      var caret := area.selectionStart + |tabValue|;
      KeyOutcome(key, TextAreaState(newValue, caret, caret), [newValue])
    else
      KeyOutcome(key, area, [])
  }

  /** Auto-close adds exactly one unit, and removing the unit at the caret
      gives back the text as typed; the result differs from the typed text
      exactly when the rule fires. */
  lemma AutoCloseUndo(text: string, selStart: nat, lastKey: string)
    ensures var r := AutoClose(text, selStart, lastKey);
      (r != text <==> Fires(text, selStart, lastKey)) &&
      (Fires(text, selStart, lastKey) ==> r[..selStart] + r[selStart + 1..] == text)
  {
    var r := AutoClose(text, selStart, lastKey);
    if Fires(text, selStart, lastKey) {
      assert |r| != |text|;
      assert text == text[..selStart] + text[selStart..];
    }
  }

  /** The closer inserted is the partner of the opener before the caret,
      so opener and closer end up adjacent around the caret. */
  lemma AutoClosePairs(text: string, selStart: nat, lastKey: string)
    requires Fires(text, selStart, lastKey)
    ensures var r := AutoClose(text, selStart, lastKey);
      (r[selStart - 1], r[selStart]) in {('(', ')'), ('{', '}'), ('[', ']')}
  {
    var r := AutoClose(text, selStart, lastKey);
    assert r[selStart - 1] == r[..selStart][selStart - 1];
  }

  /** Only the exact key "Backspace" suppresses the rule: after "Delete", or
      after the opener's own key-down, a closer is still inserted. */
  lemma OnlyBackspaceSuppresses(text: string, selStart: nat, lastKey: string)
    requires 0 < selStart <= |text| && text[selStart - 1] in Brackets
    ensures AutoClose(text, selStart, lastKey) == text <==> lastKey == "Backspace"
  {
    AutoCloseUndo(text, selStart, lastKey);
  }

  /** Removing the inserted spaces gives back the host's value. */
  lemma TabIndentUndo(area: TextAreaState, value: string, tabSize: Option<nat>)
    requires area.selectionStart == area.selectionEnd <= |value|
    ensures var o := OnKeyDown("Tab", area, value, tabSize);
      var s := area.selectionStart;
      var e := o.area.selectionEnd;
      o.area.value[..s] + o.area.value[e..] == value &&
      forall i :: s <= i < e ==> o.area.value[i] == ' '
  {
    var o := OnKeyDown("Tab", area, value, tabSize);
    var s := area.selectionStart;
    var n := tabSize.GetOr(DefaultTabSize);
    assert o.area.value[..s] == value[..s];
    assert o.area.value[s + n..] == value[s..];
    assert value == value[..s] + value[s..];
  }

  /** Typing an opener into an empty buffer leaves a closed pair with the
      caret between its halves. */
  lemma EmptyBufferPairs()
    ensures OnChange(TextAreaState("(", 1, 1), "(").area == TextAreaState("()", 1, 1)
    ensures OnChange(TextAreaState("{", 1, 1), "{").area == TextAreaState("{}", 1, 1)
    ensures OnChange(TextAreaState("[", 1, 1), "[").area == TextAreaState("[]", 1, 1)
  {
  }

  /** A Backspace key-down, then an opener typed at the same place: the
      opener's own key-down replaces "Backspace" as the last key, so the
      closer is inserted; only the change caused by the Backspace itself is
      left alone. */
  lemma BackspaceThenOpener(text: string, s: nat)
    requires 0 < s <= |text| && text[s - 1] == '('
    ensures var k := OnKeyDown("Backspace", TextAreaState(text, s, s), text, None);
      OnChange(TextAreaState(text, s, s), k.lastKey).area.value == text
    ensures var k1 := OnKeyDown("Backspace", TextAreaState(text, s, s), text, None);
      var k2 := OnKeyDown("(", k1.area, text, None);
      OnChange(TextAreaState(text, s, s), k2.lastKey).area.value == text[..s] + ")" + text[s..]
  {
  }

  /** Tab inside "ab" between its two units. */
  lemma TabBetween()
    ensures OnKeyDown("Tab", TextAreaState("ab", 1, 1), "ab", None).area == TextAreaState("a  b", 3, 3)
  {
    assert Repeat(' ', 2) == "  ";
  }
}

=== FILE: page.dfy ===
/** The session of the home page, as the page's handlers and effects
    leave it. React state becomes one immutable `Session` value; every
    handler and every effect is a function from session to session, and the
    `On...` functions chain a handler with the effects its state changes set
    off. */
module Page {
  import opened Wrappers
  import opened Tabs

  /** The content every newly created file starts with. */
  const NewFileDefaultCode: string := "// start writing code from here\n\n"

  /** The page's state: the tab list, the index believed to hold the active
      tab (-1 before mounting), the editor's working copy of the active tab
      (where typing goes until it is saved), and whether the name-conflict
      dialog is open. */
  datatype Session = Session(tabs: seq<Tab>, activeIdx: int, pending: Option<Tab>, conflictOpen: bool)

  /** The active-tab invariant: `activeIdx` is a position of the list and
      the tab there is the one and only active tab. */
  predicate ActiveAt(s: Session) {
    && 0 <= s.activeIdx < |s.tabs|
    && forall i :: 0 <= i < |s.tabs| ==> (s.tabs[i].active <==> i == s.activeIdx)
  }

  /** The working copy belongs to the active tab: it differs from the
      stored tab at most in its content, the unsaved edits. */
  predicate PendingMatches(s: Session) {
    && s.pending.Some?
    && 0 <= s.activeIdx < |s.tabs|
    && s.pending.value == s.tabs[s.activeIdx].(content := s.pending.value.content)
  }

  /** Everything the page promises of a mounted session. */
  predicate Valid(s: Session) {
    && ActiveAt(s)
    && NamesUnique(s.tabs)
    && IdsUnique(s.tabs)
    && OrdersIncreasing(s.tabs)
    && PendingMatches(s)
  }

  /** The three tabs the page starts with, with the ids `nanoid` would give
      them and the starter program of the first tab as parameters. */
  function InitialTabs(id1: string, id2: string, id3: string, starter: string): (ts: seq<Tab>)
    ensures |ts| == 3 && ts[0].active && !ts[1].active && !ts[2].active
  {
    [ Tab(id1, "page.tsx", "tsx", 1, starter, true),
      Tab(id2, "Header.tsx", "tsx", 2, "", false),
      Tab(id3, "Tabs.tsx", "tsx", 3, "", false) ]
  }

  /** The session before mounting: no index and no working copy yet. The
      names are distinct, the orders increase, the first tab is the only
      active one, and the ids are distinct when `nanoid` gave distinct ids. */
  function Initial(id1: string, id2: string, id3: string, starter: string): (s: Session)
    ensures s.activeIdx == -1 && s.pending.None? && !s.conflictOpen
    ensures |s.tabs| == 3 && ActiveIndices(s.tabs) == {0}
    ensures NamesUnique(s.tabs) && OrdersIncreasing(s.tabs)
    ensures id1 != id2 && id1 != id3 && id2 != id3 ==> IdsUnique(s.tabs)
  {
    var ts := InitialTabs(id1, id2, id3, starter);
    ExactlyOneActive(ts, 0);
    Session(ts, -1, None, false)
  }

  /** `tabs.findIndex(t => t.active)`. */
  function FindActiveIndex(ts: seq<Tab>): (r: int)
    ensures -1 <= r < |ts|
    ensures r == -1 <==> !HasActive(ts)
    ensures 0 <= r ==> ts[r].active && forall i :: 0 <= i < r ==> !ts[i].active
  {
    if |ts| == 0 then -1
    else if ts[0].active then 0
    else
      var k := FindActiveIndex(ts[1..]);
      if k == -1 then
        assert forall i :: 1 <= i < |ts| ==> ts[i] == ts[1..][i - 1];
        -1
      else k + 1
  }

  /** `activateTab(idx)`: clear the flag at `activeIdx`, set it at `idx`,
      and point `activeIdx` at `idx`. Both indices must be positions of the
      list: `tabs[activeTabIdx].active = …` throws otherwise. */
  function ActivateTab(s: Session, idx: int): (r: Session)
    requires 0 <= s.activeIdx < |s.tabs| && 0 <= idx < |s.tabs|
    ensures r.activeIdx == idx && r.pending == s.pending && r.conflictOpen == s.conflictOpen
    ensures |r.tabs| == |s.tabs|
    ensures forall i :: 0 <= i < |s.tabs| ==> r.tabs[i] == s.tabs[i].(active := r.tabs[i].active)
    ensures r.tabs[idx].active
    ensures s.activeIdx != idx ==> !r.tabs[s.activeIdx].active
    ensures forall i :: 0 <= i < |s.tabs| && i != idx && i != s.activeIdx ==> r.tabs[i] == s.tabs[i]
    ensures ActiveAt(s) ==> ActiveAt(r) && ActiveIndices(r.tabs) == {idx}
  {
    var cleared := SetActive(s.tabs, s.activeIdx, false);
    var r := s.(tabs := SetActive(cleared, idx, true), activeIdx := idx);
    assert ActiveAt(s) ==> ActiveAt(r) && ActiveIndices(r.tabs) == {idx} by {
      if ActiveAt(s) {
        assert ActiveAt(r);
        ExactlyOneActive(r.tabs, idx);
      }
    }
    r
  }

  /** `saveActiveTabChanges()`: write the working copy, when there is one,
      into the slot at `activeIdx`. */
  function SaveActiveTabChanges(s: Session): (r: Session)
    requires s.pending.Some? ==> 0 <= s.activeIdx < |s.tabs|
    ensures r.activeIdx == s.activeIdx && r.pending == s.pending && r.conflictOpen == s.conflictOpen
    ensures |r.tabs| == |s.tabs|
    ensures s.pending.None? ==> r == s
    ensures s.pending.Some? ==>
      && r.tabs[s.activeIdx] == s.pending.value
      && forall i :: 0 <= i < |s.tabs| && i != s.activeIdx ==> r.tabs[i] == s.tabs[i]
    ensures Valid(s) ==> Valid(r) && r.tabs[r.activeIdx] == r.pending.value
  {
    if s.pending.Some? then
      var r := s.(tabs := s.tabs[s.activeIdx := s.pending.value]);
      assert Valid(s) ==>
        forall i :: 0 <= i < |s.tabs| ==> r.tabs[i] == s.tabs[i].(content := r.tabs[i].content);
      r
    else s
  }

  /** The effect on a change of `activeIdx`: when the slot there holds a
      tab that is not active, activate it in place; then load that slot into
      the working copy (none when `activeIdx` is no position). */
  function ActiveIdxEffect(s: Session): (r: Session)
    ensures r.activeIdx == s.activeIdx && r.conflictOpen == s.conflictOpen
    ensures 0 <= s.activeIdx < |s.tabs| ==>
      && r.tabs == SetActive(s.tabs, s.activeIdx, true)
      && r.pending == Some(r.tabs[s.activeIdx])
    ensures !(0 <= s.activeIdx < |s.tabs|) ==> r == s.(pending := None)
  {
    if 0 <= s.activeIdx < |s.tabs| then
      var t := if !s.tabs[s.activeIdx].active then ActivateTab(s, s.activeIdx) else s;
      assert t.tabs == SetActive(s.tabs, s.activeIdx, true);
      t.(pending := Some(t.tabs[t.activeIdx]))
    else
      s.(pending := None)
  }

  /** The mount effects: point `activeIdx` at the first active tab, then
      run the effect of that index change. */
  function Mount(s: Session): (r: Session)
    ensures r.activeIdx == FindActiveIndex(s.tabs) && r.conflictOpen == s.conflictOpen
    ensures HasActive(s.tabs) ==>
      && r.tabs == s.tabs
      && r.tabs[r.activeIdx].active
      && r.pending == Some(s.tabs[r.activeIdx])
    ensures !HasActive(s.tabs) ==> r == s.(activeIdx := -1, pending := None)
  {
    var k := FindActiveIndex(s.tabs);
    if k != -1 then
      assert SetActive(s.tabs, k, true) == s.tabs;
      ActiveIdxEffect(s.(activeIdx := k))
    else
      ActiveIdxEffect(s.(activeIdx := k))
  }

  /** The effect on a change of the tab list: when no tab is active,
      `activateTab(0)`. That call throws unless both 0 and the current
      `activeIdx` are positions of the list, hence the precondition. */
  function NoActiveRepair(s: Session): (r: Session)
    requires HasActive(s.tabs) || 0 <= s.activeIdx < |s.tabs|
    ensures HasActive(s.tabs) ==> r == s
    ensures !HasActive(s.tabs) ==>
      && r.activeIdx == 0
      && ActiveAt(r)
      && r.pending == s.pending && r.conflictOpen == s.conflictOpen
      && r.tabs == SetActive(s.tabs, 0, true)
  {
    if HasActive(s.tabs) then s
    else
      assert s.tabs[s.activeIdx] == s.tabs[s.activeIdx].(active := false);
      ActivateTab(s, 0)
  }

  /** `handleOnTabPress(id)`: an unknown id is ignored; otherwise save the
      working copy, then activate the pressed tab. */
  function HandleOnTabPress(s: Session, id: string): (r: Session)
    requires FindIndexById(s.tabs, id) != -1 ==> 0 <= s.activeIdx < |s.tabs|
    ensures |r.tabs| == |s.tabs| && r.pending == s.pending && r.conflictOpen == s.conflictOpen
    ensures FindIndexById(s.tabs, id) == -1 ==> r == s
    ensures var k := FindIndexById(s.tabs, id);
      k != -1 ==> r.activeIdx == k && r.tabs[k].active
    ensures var k := FindIndexById(s.tabs, id);
      k != -1 ==> forall i :: 0 <= i < |s.tabs| && i != s.activeIdx ==>
        r.tabs[i] == s.tabs[i].(active := r.tabs[i].active)
    ensures var k := FindIndexById(s.tabs, id);
      k != -1 ==>
        r.tabs[s.activeIdx] == s.pending.GetOr(s.tabs[s.activeIdx]).(active := r.tabs[s.activeIdx].active)
    ensures var k := FindIndexById(s.tabs, id);
      k != -1 ==>
        && (forall i :: 0 <= i < |s.tabs| && i != k && i != s.activeIdx ==> r.tabs[i] == s.tabs[i])
        && (k != s.activeIdx ==> !r.tabs[s.activeIdx].active)
  {
    var k := FindIndexById(s.tabs, id);
    if k == -1 then s
    else ActivateTab(SaveActiveTabChanges(s), k)
  }

  /** A tab press as the user sees it: the handler, then the index effect
      when the index moved. The working copy is saved before the switch,
      the pressed tab becomes the only active one, and the working copy is
      then the pressed tab. */
  function OnTabPress(s: Session, id: string): (r: Session)
    requires FindIndexById(s.tabs, id) != -1 ==> 0 <= s.activeIdx < |s.tabs|
    ensures FindIndexById(s.tabs, id) == -1 ==> r == s
    ensures var k := FindIndexById(s.tabs, id);
      Valid(s) && k != -1 ==>
        && Valid(r)
        && |r.tabs| == |s.tabs|
        && r.activeIdx == k && r.tabs[k].id == id
        && r.tabs[s.activeIdx].content == s.pending.value.content
        && r.pending == Some(r.tabs[k])
        && forall i :: 0 <= i < |s.tabs| && i != s.activeIdx ==>
             r.tabs[i] == s.tabs[i].(active := r.tabs[i].active)
  {
    var k := FindIndexById(s.tabs, id);
    if k == -1 then s
    else
      var saved := SaveActiveTabChanges(s);
      var h := ActivateTab(saved, k);
      assert h == HandleOnTabPress(s, id);
      assert Valid(s) ==>
        ActiveAt(h) && NamesUnique(h.tabs) && IdsUnique(h.tabs) && OrdersIncreasing(h.tabs) by {
        if Valid(s) { SameButFlagsKeeps(saved.tabs, h.tabs); }
      }
      if h.activeIdx != s.activeIdx then ActiveIdxEffect(h) else h
  }

  /** The tab `handleAddNewTabClick` appends: inactive, starter content,
      language from the name, order one past the last tab's. */
  function NewTab(ts: seq<Tab>, fileName: string, freshId: string): (t: Tab)
    requires |ts| > 0 && '.' in fileName
    ensures t.id == freshId && t.name == fileName && !t.active
    ensures t.language == Language(fileName) && t.content == NewFileDefaultCode
    ensures t.order == ts[|ts| - 1].order + 1
    ensures OrdersIncreasing(ts) ==> OrdersIncreasing(ts + [t])
  {
    var t := Tab(freshId, fileName, Language(fileName), ts[|ts| - 1].order + 1, NewFileDefaultCode, false);
    assert OrdersIncreasing(ts) ==> OrdersIncreasing(ts + [t]) by {
      if OrdersIncreasing(ts) { LastOrderIsMax(ts); }
    }
    t
  }

  /** `handleAddNewTabClick(fileName)`. A name equal to an existing tab's
      opens the conflict dialog and changes nothing else. Otherwise a new tab
      is appended and activated; the working copy is not saved first. The
      name contains a dot (the dialog offers no way to create one without);
      the list is non-empty, since the last tab's order is read; and
      `activeIdx` is a position of the list once the new tab is pushed, since
      `activateTab` writes through it. A stale `activeIdx` equal to the old
      length therefore passes: it names the new tab. The id is fresh. */
  function HandleAddNewTabClick(s: Session, fileName: string, freshId: string): (r: Session)
    requires '.' in fileName
    requires !NameTaken(s.tabs, fileName) ==> |s.tabs| > 0 && 0 <= s.activeIdx <= |s.tabs|
    requires forall i :: 0 <= i < |s.tabs| ==> s.tabs[i].id != freshId
    ensures NameTaken(s.tabs, fileName) ==> r == s.(conflictOpen := true)
    ensures !NameTaken(s.tabs, fileName) ==>
      && |r.tabs| == |s.tabs| + 1
      && r.activeIdx == |s.tabs|
      && r.pending == s.pending && r.conflictOpen == s.conflictOpen
      && (forall i :: 0 <= i < |s.tabs| ==> r.tabs[i] == s.tabs[i].(active := r.tabs[i].active))
      && r.tabs[|s.tabs|] == Tab(freshId, fileName, Language(fileName),
                                 s.tabs[|s.tabs| - 1].order + 1, NewFileDefaultCode, true)
    ensures !NameTaken(s.tabs, fileName) ==>
      r.tabs[..|s.tabs|] == (if s.activeIdx < |s.tabs| then SetActive(s.tabs, s.activeIdx, false) else s.tabs)
    ensures !NameTaken(s.tabs, fileName) && Valid(s) ==>
      && ActiveAt(r) && NamesUnique(r.tabs) && IdsUnique(r.tabs) && OrdersIncreasing(r.tabs)
  {
    if NameTaken(s.tabs, fileName) then s.(conflictOpen := true)
    else
      var t := NewTab(s.tabs, fileName, freshId);
      var r := ActivateTab(s.(tabs := s.tabs + [t]), |s.tabs|);
      assert r.tabs[..|s.tabs|] == (if s.activeIdx < |s.tabs| then SetActive(s.tabs, s.activeIdx, false) else s.tabs) by {
        assert forall i :: 0 <= i < |s.tabs| && i != s.activeIdx ==> r.tabs[i] == s.tabs[i];
      }
      assert Valid(s) ==>
        ActiveAt(r) && NamesUnique(r.tabs) && IdsUnique(r.tabs) && OrdersIncreasing(r.tabs) by {
        if Valid(s) { AppendThenActivate(s, t); }
      }
      r
  }

  /** Appending a fresh, inactive tab that carries a new name, a new id and
      an order past the last, then activating it, keeps the list invariants
      and the active-tab invariant. */
  lemma AppendThenActivate(s: Session, t: Tab)
    requires Valid(s) && !t.active
    requires !NameTaken(s.tabs, t.name)
    requires forall i :: 0 <= i < |s.tabs| ==> s.tabs[i].id != t.id
    requires t.order == s.tabs[|s.tabs| - 1].order + 1
    ensures var r := ActivateTab(s.(tabs := s.tabs + [t]), |s.tabs|);
      ActiveAt(r) && NamesUnique(r.tabs) && IdsUnique(r.tabs) && OrdersIncreasing(r.tabs)
  {
    var ts := s.tabs + [t];
    LastOrderIsMax(s.tabs);
    assert NamesUnique(ts) && IdsUnique(ts) && OrdersIncreasing(ts);
    var appended := s.(tabs := ts);
    assert ActiveAt(appended);
    var r := ActivateTab(appended, |s.tabs|);
    assert SameButFlags(ts, r.tabs);
    SameButFlagsKeeps(ts, r.tabs);
  }

  /** Creating a file as the user sees it: the handler, then the index
      effect when the index moved, which loads the new tab into the working
      copy. */
  function OnAddNewTab(s: Session, fileName: string, freshId: string): (r: Session)
    requires '.' in fileName
    requires !NameTaken(s.tabs, fileName) ==> |s.tabs| > 0 && 0 <= s.activeIdx <= |s.tabs|
    requires forall i :: 0 <= i < |s.tabs| ==> s.tabs[i].id != freshId
    ensures NameTaken(s.tabs, fileName) ==> r == s.(conflictOpen := true)
    ensures !NameTaken(s.tabs, fileName) && Valid(s) ==>
      && Valid(r)
      && |r.tabs| == |s.tabs| + 1
      && r.tabs[..|s.tabs|] == SetActive(s.tabs, s.activeIdx, false)
      && r.tabs[|s.tabs|].name == fileName
      && r.tabs[|s.tabs|].language == Language(fileName)
      && r.tabs[|s.tabs|].content == NewFileDefaultCode
      && (forall i :: 0 <= i < |s.tabs| ==> r.tabs[i].order < r.tabs[|s.tabs|].order)
      && r.pending == Some(r.tabs[|s.tabs|])
  {
    var h := HandleAddNewTabClick(s, fileName, freshId);
    if h.activeIdx != s.activeIdx then
      var r := ActiveIdxEffect(h);
      assert !NameTaken(s.tabs, fileName) && Valid(s) ==>
        r.tabs[..|s.tabs|] == SetActive(s.tabs, s.activeIdx, false) by {
        if !NameTaken(s.tabs, fileName) && Valid(s) { assert r.tabs == h.tabs; }
      }
      r
    else h
  }

  /** Creating a file when a close has left `activeIdx` equal to the length
      of the list: the new tab lands on that index, so no tab is
      deactivated, the index does not move, the index effect does not run,
      and the working copy stays what it was. */
  lemma CreateOnStaleIndex(s: Session, fileName: string, freshId: string)
    requires '.' in fileName && !NameTaken(s.tabs, fileName)
    requires |s.tabs| > 0 && s.activeIdx == |s.tabs|
    requires forall i :: 0 <= i < |s.tabs| ==> s.tabs[i].id != freshId
    ensures var r := OnAddNewTab(s, fileName, freshId);
      && |r.tabs| == |s.tabs| + 1
      && (forall i :: 0 <= i < |s.tabs| ==> r.tabs[i] == s.tabs[i])
      && r.tabs[|s.tabs|] == NewTab(s.tabs, fileName, freshId).(active := true)
      && r.activeIdx == s.activeIdx && r.pending == s.pending
  {
    var t := NewTab(s.tabs, fileName, freshId);
    assert HandleAddNewTabClick(s, fileName, freshId) == ActivateTab(s.(tabs := s.tabs + [t]), |s.tabs|);
  }

  /** `handleTabClose(id)`: drop the tabs holding `id`. Neither `activeIdx`
      nor the working copy is touched. */
  function HandleTabClose(s: Session, id: string): (r: Session)
    ensures r.activeIdx == s.activeIdx && r.pending == s.pending && r.conflictOpen == s.conflictOpen
    ensures forall t :: t in r.tabs <==> t in s.tabs && t.id != id
    ensures (forall i :: 0 <= i < |s.tabs| ==> s.tabs[i].id != id) ==> r == s
    ensures OrdersIncreasing(s.tabs) ==> OrdersIncreasing(r.tabs)
    ensures NamesUnique(s.tabs) ==> NamesUnique(r.tabs)
    ensures IdsUnique(s.tabs) ==> IdsUnique(r.tabs)
  {
    RemoveIdKeepsInvariants(s.tabs, id);
    assert (forall i :: 0 <= i < |s.tabs| ==> s.tabs[i].id != id) ==> RemoveId(s.tabs, id) == s.tabs by {
      if forall i :: 0 <= i < |s.tabs| ==> s.tabs[i].id != id { RemoveAbsentId(s.tabs, id); }
    }
    s.(tabs := RemoveId(s.tabs, id))
  }

  /** When the effects that follow a close run without throwing: some tab
      is still active, or the stale `activeIdx` still names a position. */
  predicate CloseDefined(s: Session, id: string) {
    var ts := RemoveId(s.tabs, id);
    HasActive(ts) || 0 <= s.activeIdx < |ts|
  }

  /** Closing a tab as the user sees it: the handler, the list-change
      repair, then the index effect when the repair moved the index. */
  function OnTabClose(s: Session, id: string): (r: Session)
    requires CloseDefined(s, id)
    ensures r.tabs == RemoveId(s.tabs, id) || r.tabs == SetActive(RemoveId(s.tabs, id), 0, true)
    ensures ActiveAt(s) && (forall i :: 0 <= i < |s.tabs| ==> s.tabs[i].id != id) ==> r == s
    ensures HasActive(RemoveId(s.tabs, id)) ==>
      r.tabs == RemoveId(s.tabs, id) && r.activeIdx == s.activeIdx && r.pending == s.pending
    ensures !HasActive(RemoveId(s.tabs, id)) ==> ActiveAt(r) && r.activeIdx == 0
    ensures !HasActive(RemoveId(s.tabs, id)) ==>
      r.pending == (if s.activeIdx == 0 then s.pending else Some(r.tabs[0]))
    ensures r.conflictOpen == s.conflictOpen
  {
    var h := HandleTabClose(s, id);
    var rep := NoActiveRepair(h);
    if rep.activeIdx != s.activeIdx then ActiveIdxEffect(rep) else rep
  }

  /** The editor's change callback: the emitted text replaces the working
      copy's content. With no working copy the editor is not shown, so no
      text can arrive. */
  function EditActive(s: Session, text: string): (r: Session)
    ensures s.pending.Some? ==> r == s.(pending := Some(s.pending.value.(content := text)))
    ensures s.pending.None? ==> r == s
    ensures PendingMatches(s) ==> PendingMatches(r)
  {
    match s.pending
    case Some(t) => s.(pending := Some(t.(content := text)))
    case None => s
  }

  /** Closing the conflict dialog. */
  function DismissConflict(s: Session): (r: Session)
    ensures !r.conflictOpen && r.tabs == s.tabs && r.activeIdx == s.activeIdx && r.pending == s.pending
  {
    s.(conflictOpen := false)
  }

  /** After mounting, the session is valid: the first tab is the active one
      and the working copy is that tab. */
  lemma MountedIsValid(id1: string, id2: string, id3: string, starter: string)
    requires id1 != id2 && id1 != id3 && id2 != id3
    ensures var m := Mount(Initial(id1, id2, id3, starter));
      Valid(m) && m.activeIdx == 0 && m.pending == Some(m.tabs[0]) && !m.conflictOpen
  {
    var ts := InitialTabs(id1, id2, id3, starter);
    assert FindActiveIndex(ts) == 0;
    assert SetActive(ts, 0, true) == ts;
  }
}

=== FILE: page_fixed.dfy ===
/** Two defects of the page's handlers, each shown on the as-written
    model, and the corrected session that the whole-run invariant is
    proved for. */
module PageFixed {
  import opened Wrappers
  import opened Tabs
  import opened Page

  /** The session after the last tab is closed: no tabs, no index, no
      working copy. */
  predicate Empty(s: Session) {
    |s.tabs| == 0 && s.activeIdx == -1 && s.pending.None?
  }

  /** A session the corrected handlers keep: valid, or empty. */
  predicate Sound(s: Session) {
    Valid(s) || Empty(s)
  }

  // ---------------------------------------------------------------------
  // Creating a file discards the unsaved edits of the active tab.

  /** As written: after creating a file, the previously active tab still
      holds its old content and the working copy is the new file, so edits
      that were not saved are gone. */
  lemma CreateDropsEdits(s: Session, fileName: string, freshId: string)
    requires Valid(s) && '.' in fileName && !NameTaken(s.tabs, fileName)
    requires forall i :: 0 <= i < |s.tabs| ==> s.tabs[i].id != freshId
    ensures var r := OnAddNewTab(s, fileName, freshId);
      && r.tabs[s.activeIdx].content == s.tabs[s.activeIdx].content
      && r.pending.value.content == NewFileDefaultCode
  {
  }

  /** The same on a concrete run: edit the starter tab, create "a.ts"; the
      starter tab still holds the starter text. */
  lemma CreateDropsEditsExample()
    ensures var m := Mount(Initial("p", "h", "t", "old"));
      var r := OnAddNewTab(EditActive(m, "new"), "a.ts", "n");
      r.tabs[0].content == "old" && r.pending.value.content != "new"
  {
    MountedIsValid("p", "h", "t", "old");
    var m := Mount(Initial("p", "h", "t", "old"));
    var e := EditActive(m, "new");
    assert !NameTaken(e.tabs, "a.ts") by {
      assert e.tabs == InitialTabs("p", "h", "t", "old");
    }
    CreateDropsEdits(e, "a.ts", "n");
  }

  /** Corrected: save the working copy before creating, as a tab press
      does; an empty session gets order 1, one past the orders of nothing. */
  function OnAddNewTabFixed(s: Session, fileName: string, freshId: string): (r: Session)
    requires Sound(s) && '.' in fileName
    requires forall i :: 0 <= i < |s.tabs| ==> s.tabs[i].id != freshId
    ensures Sound(r)
    ensures NameTaken(s.tabs, fileName) ==> r == s.(conflictOpen := true)
    ensures Valid(s) && !NameTaken(s.tabs, fileName) ==>
      && |r.tabs| == |s.tabs| + 1
      && r.tabs[s.activeIdx].content == s.pending.value.content
  {
    if NameTaken(s.tabs, fileName) then s.(conflictOpen := true)
    else if |s.tabs| == 0 then
      var t := Tab(freshId, fileName, Language(fileName), 1, NewFileDefaultCode, true);
      Session([t], 0, Some(t), s.conflictOpen)
    else
      SaveThenCreate(s, fileName, freshId);
      OnAddNewTab(SaveActiveTabChanges(s), fileName, freshId)
  }

  /** Saving first, then creating: valid, the new tab appended at the end
      with its name, language, starter content and an order past every
      other, and the old active tab holding the saved edits. */
  lemma SaveThenCreate(s: Session, fileName: string, freshId: string)
    requires Valid(s) && '.' in fileName && !NameTaken(s.tabs, fileName)
    requires forall i :: 0 <= i < |s.tabs| ==> s.tabs[i].id != freshId
    ensures var saved := SaveActiveTabChanges(s);
      && !NameTaken(saved.tabs, fileName)
      && (forall i :: 0 <= i < |saved.tabs| ==> saved.tabs[i].id != freshId)
      && var r := OnAddNewTab(saved, fileName, freshId);
      && Valid(r)
      && |r.tabs| == |s.tabs| + 1
      && r.activeIdx == |s.tabs|
      && r.tabs[|s.tabs|].name == fileName
      && r.tabs[|s.tabs|].language == Language(fileName)
      && r.tabs[|s.tabs|].content == NewFileDefaultCode
      && (forall i :: 0 <= i < |s.tabs| ==> r.tabs[i].order < r.tabs[|s.tabs|].order)
      && r.tabs[s.activeIdx].content == s.pending.value.content
      && (forall i :: 0 <= i < |s.tabs| && i != s.activeIdx ==> r.tabs[i] == s.tabs[i])
  {
    var saved := SaveActiveTabChanges(s);
    SaveKeepsNamesAndIds(s);
    var r := OnAddNewTab(saved, fileName, freshId);
    var front := r.tabs[..|s.tabs|];
    assert front == SetActive(saved.tabs, s.activeIdx, false);
    assert forall i :: 0 <= i < |s.tabs| ==> r.tabs[i] == front[i];
  }

  /** Saving the working copy of a valid session changes no name and no
      id, and the saved session is still valid. */
  lemma SaveKeepsNamesAndIds(s: Session)
    requires Valid(s)
    ensures var saved := SaveActiveTabChanges(s);
      && Valid(saved)
      && (forall i :: 0 <= i < |s.tabs| ==>
            saved.tabs[i].name == s.tabs[i].name && saved.tabs[i].id == s.tabs[i].id)
      && (forall name :: NameTaken(saved.tabs, name) <==> NameTaken(s.tabs, name))
  {
    var saved := SaveActiveTabChanges(s);
    assert forall i :: 0 <= i < |s.tabs| ==>
      saved.tabs[i].name == s.tabs[i].name && saved.tabs[i].id == s.tabs[i].id;
  }

  // ---------------------------------------------------------------------
  // Closing a tab leaves the active index (and the working copy) stale.

  /** As written: closing any tab that sits before the active one leaves
      `activeIdx` pointing one slot too far, at a tab that is not active (or
      past the end). */
  lemma CloseBeforeActiveDesyncs(s: Session, k: int)
    requires Valid(s) && 0 <= k < s.activeIdx
    ensures CloseDefined(s, s.tabs[k].id)
    ensures !ActiveAt(OnTabClose(s, s.tabs[k].id))
  {
    var id := s.tabs[k].id;
    CutKeepsInvariants(s, k);
    var ts := Cut(s.tabs, k);
    assert ts[s.activeIdx - 1] == s.tabs[s.activeIdx];
    assert HasActive(ts);
    assert OnTabClose(s, id) == HandleTabClose(s, id);
    if s.activeIdx < |ts| {
      assert !ts[s.activeIdx].active;
    }
  }

  /** The three starting tabs of the concrete run below, by their ids
      "p", "h" and "t". */
  const PageOff := Tab("p", "page.tsx", "tsx", 1, "", false)
  const HeaderOn := Tab("h", "Header.tsx", "tsx", 2, "", true)
  const TabsOff := Tab("t", "Tabs.tsx", "tsx", 3, "", false)

  /** The consequence on a concrete run: press the second tab, close the
      first, press the third. The third tab is gone and the second is there
      twice, both copies active. */
  lemma CloseBeforeActiveLosesTab()
    ensures OnTabPress(OnTabClose(OnTabPress(Mount(Initial("p", "h", "t", "")), "h"), "p"), "t")
         == Session([HeaderOn, HeaderOn], 1, Some(HeaderOn), false)
  {
    PressSecondTab();
    CloseFirstTab();
    PressStaleSlot();
  }

  /** The mounted page all the runs here start from: `page.tsx` active at
      index 0 and loaded into the working copy. */
  lemma MountedStart()
    ensures Mount(Initial("p", "h", "t", "")) == Session([PageOn, HeaderOff, TabsOff], 0, Some(PageOn), false)
  {
    MountedIsValid("p", "h", "t", "");
  }

  /** First step of the run above: the second tab becomes active and is
      loaded into the working copy. */
  lemma PressSecondTab()
    ensures OnTabPress(Mount(Initial("p", "h", "t", "")), "h")
         == Session([PageOff, HeaderOn, TabsOff], 1, Some(HeaderOn), false)
  {
    MountedStart();
    var m := Mount(Initial("p", "h", "t", ""));
    assert FindIndexById(m.tabs, "h") == 1;
  }

  /** Second step: the first tab goes, but the index stays 1 and the
      working copy stays the second tab. */
  lemma CloseFirstTab()
    ensures OnTabClose(Session([PageOff, HeaderOn, TabsOff], 1, Some(HeaderOn), false), "p")
         == Session([HeaderOn, TabsOff], 1, Some(HeaderOn), false)
  {
    var a := Session([PageOff, HeaderOn, TabsOff], 1, Some(HeaderOn), false);
    assert IdsUnique(a.tabs);
    RemoveUniqueId(a.tabs, 0);
    assert RemoveId(a.tabs, "p") == [HeaderOn, TabsOff];
    assert HasActive([HeaderOn, TabsOff]) by { assert [HeaderOn, TabsOff][0].active; }
  }

  /** Last step: pressing the tab that now sits at the stale index writes
      the stale working copy over it. */
  lemma PressStaleSlot()
    ensures OnTabPress(Session([HeaderOn, TabsOff], 1, Some(HeaderOn), false), "t")
         == Session([HeaderOn, HeaderOn], 1, Some(HeaderOn), false)
  {
    var b := Session([HeaderOn, TabsOff], 1, Some(HeaderOn), false);
    assert FindIndexById(b.tabs, "t") == 1;
    assert SaveActiveTabChanges(b).tabs == [HeaderOn, HeaderOn];
  }

  /** The starting tabs with the activity moved elsewhere, and the new
      file of the run below, with the id "n". */
  const PageOn := PageOff.(active := true)
  const HeaderOff := HeaderOn.(active := false)
  const TabsOn := TabsOff.(active := true)
  const NewFileOn := Tab("n", "a.ts", "ts", 4, NewFileDefaultCode, true)

  /** A second consequence of the stale index, on a run in three steps:
      press the third tab, close the first, create `a.ts`. The close leaves
      `activeIdx` equal to the length of the list, with a working copy set;
      the new tab lands on that index, nothing is deactivated, and two tabs
      end up active while the working copy is still the third tab.

      First step: the third tab becomes active and is loaded. */
  lemma PressThirdTab()
    ensures OnTabPress(Mount(Initial("p", "h", "t", "")), "t")
         == Session([PageOff, HeaderOff, TabsOn], 2, Some(TabsOn), false)
  {
    MountedStart();
    var m := Mount(Initial("p", "h", "t", ""));
    assert FindIndexById(m.tabs, "t") == 2;
  }

  /** Second step: the first tab goes; the index stays 2, one past the end,
      and the working copy stays. */
  lemma CloseFirstTabPastEnd()
    ensures var r := OnTabClose(Session([PageOff, HeaderOff, TabsOn], 2, Some(TabsOn), false), "p");
      && r == Session([HeaderOff, TabsOn], 2, Some(TabsOn), false)
      && r.activeIdx == |r.tabs| && r.pending.Some?
  {
    var a := Session([PageOff, HeaderOff, TabsOn], 2, Some(TabsOn), false);
    assert IdsUnique(a.tabs);
    RemoveUniqueId(a.tabs, 0);
    assert RemoveId(a.tabs, "p") == [HeaderOff, TabsOn];
    assert HasActive([HeaderOff, TabsOn]) by { assert [HeaderOff, TabsOn][1].active; }
  }

  /** Last step: the new tab is pushed at index 2 and activated there. */
  lemma CreateAtStaleIndex()
    ensures OnAddNewTab(Session([HeaderOff, TabsOn], 2, Some(TabsOn), false), "a.ts", "n")
         == Session([HeaderOff, TabsOn, NewFileOn], 2, Some(TabsOn), false)
  {
    var b := Session([HeaderOff, TabsOn], 2, Some(TabsOn), false);
    LanguageOfPlainName();
    assert NewTab(b.tabs, "a.ts", "n").(active := true) == NewFileOn;
    assert !NameTaken(b.tabs, "a.ts") by {
      assert b.tabs[0].name != "a.ts" && b.tabs[1].name != "a.ts";
    }
    CreateOnStaleIndex(b, "a.ts", "n");
    var r := OnAddNewTab(b, "a.ts", "n");
    assert r.tabs == [HeaderOff, TabsOn, NewFileOn];
  }

  /** A third consequence, on a run in two steps: close the active first
      tab right after mounting, then press the third tab. The repair
      activates the new first tab at the same index 0, so the index effect
      does not run and the working copy stays the closed tab.

      First step: `page.tsx` is closed, `Header.tsx` becomes active, and
      the working copy is still `page.tsx`. */
  lemma CloseActiveFirstTab()
    ensures OnTabClose(Mount(Initial("p", "h", "t", "")), "p")
         == Session([HeaderOn, TabsOff], 0, Some(PageOn), false)
  {
    var h := Session([HeaderOff, TabsOff], 0, Some(PageOn), false);
    CloseMountedPage();
    assert !HasActive(h.tabs);
    assert SetActive(h.tabs, 0, true) == [HeaderOn, TabsOff];
    assert NoActiveRepair(h) == Session([HeaderOn, TabsOff], 0, Some(PageOn), false);
  }

  /** The handler alone: `page.tsx` leaves the list and nothing else moves. */
  lemma CloseMountedPage()
    ensures HandleTabClose(Mount(Initial("p", "h", "t", "")), "p")
         == Session([HeaderOff, TabsOff], 0, Some(PageOn), false)
  {
    MountedStart();
    var m := Mount(Initial("p", "h", "t", ""));
    assert IdsUnique(m.tabs);
    RemoveUniqueId(m.tabs, 0);
    assert RemoveId(m.tabs, "p") == [HeaderOff, TabsOff];
  }

  /** Second step: the press writes the closed `page.tsx` over slot 0, so
      `Header.tsx` is gone and `page.tsx` is back. */
  lemma PressAfterActiveClose()
    ensures OnTabPress(Session([HeaderOn, TabsOff], 0, Some(PageOn), false), "t")
         == Session([PageOff, TabsOn], 1, Some(TabsOn), false)
  {
    var b := Session([HeaderOn, TabsOff], 0, Some(PageOn), false);
    assert FindIndexById(b.tabs, "t") == 1;
    assert SaveActiveTabChanges(b).tabs == [PageOn, TabsOff];
  }

  /** As written: closing the active tab when it is the last in the list
      makes the repair call `activateTab(0)` with `activeIdx` past the end,
      which throws. */
  lemma CloseLastActiveThrows(s: Session)
    requires Valid(s) && s.activeIdx == |s.tabs| - 1
    ensures !CloseDefined(s, s.tabs[s.activeIdx].id)
  {
    RemoveUniqueId(s.tabs, s.activeIdx);
    var ts := RemoveId(s.tabs, s.tabs[s.activeIdx].id);
    assert ts == s.tabs[..s.activeIdx];
  }

  /** The list without position `k`. */
  function Cut(ts: seq<Tab>, k: int): (r: seq<Tab>)
    requires 0 <= k < |ts|
    ensures |r| == |ts| - 1
    ensures forall i :: 0 <= i < k ==> r[i] == ts[i]
    ensures forall i :: k <= i < |r| ==> r[i] == ts[i + 1]
  {
    ts[..k] + ts[k + 1..]
  }

  /** Cutting a position out of a valid list keeps names, ids and orders
      in shape. */
  lemma CutKeepsInvariants(s: Session, k: int)
    requires Valid(s) && 0 <= k < |s.tabs|
    ensures var ts := Cut(s.tabs, k);
      NamesUnique(ts) && IdsUnique(ts) && OrdersIncreasing(ts) && ts == RemoveId(s.tabs, s.tabs[k].id)
  {
    RemoveUniqueId(s.tabs, k);
    RemoveIdKeepsInvariants(s.tabs, s.tabs[k].id);
  }

  /** Closing a tab before the active one, with the index moved down. */
  lemma CloseBeforeFixed(s: Session, k: int)
    requires Valid(s) && 0 <= k < s.activeIdx
    ensures var r := s.(tabs := Cut(s.tabs, k), activeIdx := s.activeIdx - 1);
      Valid(r) && r.tabs[r.activeIdx] == s.tabs[s.activeIdx]
  {
    CutKeepsInvariants(s, k);
  }

  /** Closing a tab after the active one. */
  lemma CloseAfterFixed(s: Session, k: int)
    requires Valid(s) && s.activeIdx < k < |s.tabs|
    ensures var r := s.(tabs := Cut(s.tabs, k));
      Valid(r) && r.tabs[r.activeIdx] == s.tabs[s.activeIdx]
  {
    CutKeepsInvariants(s, k);
  }

  /** Closing the active tab while others remain: the first survivor
      becomes active and is loaded into the working copy. */
  lemma CloseActiveFixed(s: Session)
    requires Valid(s) && |s.tabs| > 1
    ensures var ts := SetActive(Cut(s.tabs, s.activeIdx), 0, true);
      Valid(s.(tabs := ts, activeIdx := 0, pending := Some(ts[0])))
  {
    CutKeepsInvariants(s, s.activeIdx);
    var cut := Cut(s.tabs, s.activeIdx);
    var ts := SetActive(cut, 0, true);
    assert SameButFlags(cut, ts);
    SameButFlagsKeeps(cut, ts);
    CutLeavesNoneActive(s);
    var r := s.(tabs := ts, activeIdx := 0, pending := Some(ts[0]));
    assert ActiveAt(r);
    assert PendingMatches(r);
  }

  /** Cutting out the active tab leaves no tab active. */
  lemma CutLeavesNoneActive(s: Session)
    requires Valid(s)
    ensures forall i :: 0 <= i < |s.tabs| - 1 ==> !Cut(s.tabs, s.activeIdx)[i].active
  {
  }

  /** Corrected: the index follows the active tab when an earlier tab goes;
      closing the active tab activates the first survivor and loads it into
      the working copy; closing the last tab empties the session. */
  function OnTabCloseFixed(s: Session, id: string): (r: Session)
    requires Sound(s)
    ensures Sound(r) && r.conflictOpen == s.conflictOpen
  {
    var k := FindIndexById(s.tabs, id);
    if k == -1 then s else CloseAt(s, k)
  }

  /** The corrected close of the tab at position `k`. */
  function CloseAt(s: Session, k: int): (r: Session)
    requires Valid(s) && 0 <= k < |s.tabs|
    ensures Sound(r) && r.conflictOpen == s.conflictOpen
    ensures SameButFlags(Cut(s.tabs, k), r.tabs)
  {
    var ts := Cut(s.tabs, k);
    if k < s.activeIdx then
      CloseBeforeFixed(s, k);
      s.(tabs := ts, activeIdx := s.activeIdx - 1)
    else if k > s.activeIdx then
      CloseAfterFixed(s, k);
      s.(tabs := ts)
    else if |ts| == 0 then
      Session([], -1, None, s.conflictOpen)
    else
      CloseActiveFixed(s);
      var ts' := SetActive(ts, 0, true);
      s.(tabs := ts', activeIdx := 0, pending := Some(ts'[0]))
  }

  /** What the corrected close does to the list: it is the filtered list up
      to active flags, and closing an absent id changes nothing. */
  lemma CloseFixedFilters(s: Session, id: string)
    requires Sound(s)
    ensures var r := OnTabCloseFixed(s, id);
      && SameButFlags(RemoveId(s.tabs, id), r.tabs)
      && ((forall i :: 0 <= i < |s.tabs| ==> s.tabs[i].id != id) ==> r == s)
  {
    var k := FindIndexById(s.tabs, id);
    if k == -1 {
      RemoveAbsentId(s.tabs, id);
      assert forall i :: 0 <= i < |s.tabs| ==> s.tabs[i] == s.tabs[i].(active := s.tabs[i].active);
    } else {
      CutKeepsInvariants(s, k);
      assert OnTabCloseFixed(s, id) == CloseAt(s, k);
    }
  }

  /** Closing another tab keeps the active tab active and its unsaved edits
      in the working copy. */
  lemma CloseFixedKeepsActive(s: Session, id: string)
    requires Valid(s) && s.tabs[s.activeIdx].id != id
    ensures var r := OnTabCloseFixed(s, id);
      && r.tabs == RemoveId(s.tabs, id)
      && r.tabs[r.activeIdx] == s.tabs[s.activeIdx]
      && r.pending == s.pending
  {
    var k := FindIndexById(s.tabs, id);
    if k == -1 {
      RemoveAbsentId(s.tabs, id);
    } else {
      CutKeepsInvariants(s, k);
      if k < s.activeIdx {
        CloseBeforeFixed(s, k);
      } else {
        CloseAfterFixed(s, k);
      }
    }
  }

  /** Closing the active tab while others remain makes the first survivor
      the active tab and the working copy. */
  lemma CloseFixedActivatesFirst(s: Session)
    requires Valid(s) && |s.tabs| > 1
    ensures var r := OnTabCloseFixed(s, s.tabs[s.activeIdx].id);
      r.activeIdx == 0 && r.tabs[0].active && r.pending == Some(r.tabs[0])
  {
    var k := FindIndexById(s.tabs, s.tabs[s.activeIdx].id);
    assert k == s.activeIdx;
  }

  /** Closing the only tab empties the session. */
  lemma CloseFixedLastTab(s: Session)
    requires Valid(s) && |s.tabs| == 1
    ensures Empty(OnTabCloseFixed(s, s.tabs[0].id))
  {
    assert FindIndexById(s.tabs, s.tabs[0].id) == 0;
  }

  // ---------------------------------------------------------------------
  // The corrected session over any run of user events.

  /** What the user can do: press a tab, confirm a new file name (with the
      id the generator supplies), close a tab, type into the editor, dismiss
      the conflict dialog. */
  datatype Event =
    | Press(id: string)
    | Create(fileName: string, freshId: string)
    | Close(id: string)
    | Edit(text: string)
    | Dismiss

  /** One event on the corrected session. A name without a dot never
      reaches the create handler (the dialog refuses it), and a generated id
      is never one in use; such events change nothing. */
  function Step(s: Session, e: Event): (r: Session)
    requires Sound(s)
    ensures Sound(r)
  {
    match e
    case Press(id) => OnTabPress(s, id)
    case Create(fileName, freshId) =>
      if '.' in fileName && forall i :: 0 <= i < |s.tabs| ==> s.tabs[i].id != freshId
      then OnAddNewTabFixed(s, fileName, freshId)
      else s
    case Close(id) => OnTabCloseFixed(s, id)
    case Edit(text) => EditActive(s, text)
    case Dismiss => DismissConflict(s)
  }

  /** A run of events, one after the other. */
  function Run(s: Session, events: seq<Event>): (r: Session)
    requires Sound(s)
    ensures Sound(r)
    decreases |events|
  {
    if |events| == 0 then s else Run(Step(s, events[0]), events[1..])
  }

  /** From the mounted page, every run of events leads to a session with
      unique names, unique ids, increasing orders and, unless it is empty,
      exactly one active tab, the one at `activeIdx`. */
  lemma EveryRunIsSound(id1: string, id2: string, id3: string, starter: string, events: seq<Event>)
    requires id1 != id2 && id1 != id3 && id2 != id3
    ensures var r := Run(Mount(Initial(id1, id2, id3, starter)), events);
      && NamesUnique(r.tabs) && IdsUnique(r.tabs) && OrdersIncreasing(r.tabs)
      && (|r.tabs| > 0 ==> 0 <= r.activeIdx < |r.tabs| && ActiveIndices(r.tabs) == {r.activeIdx})
  {
    MountedIsValid(id1, id2, id3, starter);
    var r := Run(Mount(Initial(id1, id2, id3, starter)), events);
    if |r.tabs| > 0 {
      ExactlyOneActive(r.tabs, r.activeIdx);
    }
  }
}

=== FILE: tabs.dfy ===
/** The tab record of the tab bar and the list operations the session
    performs on it. */
module Tabs {
  import opened Text

  /** One open document: an opaque id, a display name, the language the
      highlighter is given, a display order, the text, and the active flag. */
  datatype Tab = Tab(id: string, name: string, language: string, order: int, content: string, active: bool)

  predicate NamesUnique(ts: seq<Tab>) {
    forall i, j :: 0 <= i < j < |ts| ==> ts[i].name != ts[j].name
  }

  predicate IdsUnique(ts: seq<Tab>) {
    forall i, j :: 0 <= i < j < |ts| ==> ts[i].id != ts[j].id
  }

  /** Display orders strictly increase along the list. */
  predicate OrdersIncreasing(ts: seq<Tab>) {
    forall i, j :: 0 <= i < j < |ts| ==> ts[i].order < ts[j].order
  }

  /** `b` is `a` with at most the active flags changed. */
  predicate SameButFlags(a: seq<Tab>, b: seq<Tab>) {
    |a| == |b| && forall i :: 0 <= i < |a| ==> b[i] == a[i].(active := b[i].active)
  }

  /** `tabs.find(t => t.name === name)` is truthy: the match is exact and
      case-sensitive. */
  predicate NameTaken(ts: seq<Tab>, name: string) {
    exists i :: 0 <= i < |ts| && ts[i].name == name
  }

  /** `tabs.find(t => t.active)` is truthy. */
  predicate HasActive(ts: seq<Tab>) {
    exists i :: 0 <= i < |ts| && ts[i].active
  }

  /** The positions whose tab is active. */
  function ActiveIndices(ts: seq<Tab>): set<int> {
    set i | 0 <= i < |ts| && ts[i].active
  }

  /** `tabs.findIndex(t => t.id === id)`: the first position holding `id`, or -1. */
  function FindIndexById(ts: seq<Tab>, id: string): (r: int)
    ensures -1 <= r < |ts|
    ensures r == -1 <==> forall i :: 0 <= i < |ts| ==> ts[i].id != id
    ensures 0 <= r ==> ts[r].id == id && forall i :: 0 <= i < r ==> ts[i].id != id
  {
    if |ts| == 0 then -1
    else if ts[0].id == id then 0
    else
      var k := FindIndexById(ts[1..], id);
      if k == -1 then -1 else k + 1
  }

  /** The tab at `i` with its active flag set to `b`; nothing else changes. */
  function SetActive(ts: seq<Tab>, i: int, b: bool): (r: seq<Tab>)
    requires 0 <= i < |ts|
    ensures |r| == |ts| && r[i].active == b
    ensures forall j :: 0 <= j < |ts| ==> r[j] == (if j == i then ts[j].(active := b) else ts[j])
  {
    ts[i := ts[i].(active := b)]
  }

  /** `tabs.filter(t => t.id !== id)`: the list without the tabs holding `id`. */
  function RemoveId(ts: seq<Tab>, id: string): (r: seq<Tab>)
    ensures |r| <= |ts|
    ensures forall t :: t in r <==> t in ts && t.id != id
  {
    if |ts| == 0 then []
    else if ts[0].id == id then RemoveId(ts[1..], id)
    else [ts[0]] + RemoveId(ts[1..], id)
  }

  /** The language of a new file: `fileName.split(".")[1]`. It sits right
      after the first dot, is free of dots, and is followed by a dot or by
      the end of the name. */
  function Language(fileName: string): (lang: string)
    requires '.' in fileName
    ensures var p := IndexOf(fileName, '.') + 1;
      && '.' !in lang
      && p + |lang| <= |fileName|
      && fileName[p..p + |lang|] == lang
      && (p + |lang| == |fileName| || fileName[p + |lang|] == '.')
  {
    SplitSecondPosition(fileName, '.');
    Split(fileName, '.')[1]
  }

  /** The converse of the above: in `base.lang` followed by nothing or by a
      further dotted part, the language is exactly `lang`. */
  lemma LanguageOf(base: string, lang: string, rest: string)
    requires '.' !in base && '.' !in lang
    requires rest == "" || rest[0] == '.'
    ensures Language(base + "." + lang + rest) == lang
  {
    var s := base + "." + lang + rest;
    var p := |base| + 1;
    assert s[|base|] == '.' && s[..|base|] == base;
    assert IndexOf(s, '.') == |base|;
    assert s[p..p + |lang|] == lang;
  }

  /** A second extension is not part of the language. */
  lemma LanguageStopsAtSecondDot()
    ensures Language("util.test.ts") == "test"
  {
    assert "util.test.ts" == "util" + "." + "test" + ".ts";
    LanguageOf("util", "test", ".ts");
  }

  /** The language of a plain `name.ext` file is its extension. */
  lemma LanguageOfPlainName()
    ensures Language("a.ts") == "ts"
  {
    assert "a.ts" == "a" + "." + "ts" + "";
    LanguageOf("a", "ts", "");
  }

  /** A name ending in its first dot has an empty language. */
  lemma LanguageAfterTrailingDot()
    ensures Language("notes.") == ""
  {
    assert "notes." == "notes" + "." + "" + "";
    LanguageOf("notes", "", "");
  }

  /** Removing tabs is a filter: it works piecewise on a concatenation,
      so survivors keep their relative order. */
  lemma {:induction false} RemoveIdConcat(a: seq<Tab>, b: seq<Tab>, id: string)
    ensures RemoveId(a + b, id) == RemoveId(a, id) + RemoveId(b, id)
    decreases |a|
  {
    if |a| == 0 {
      assert a + b == b;
    } else {
      assert (a + b)[1..] == a[1..] + b;
      RemoveIdConcat(a[1..], b, id);
    }
  }

  /** Closing an id nobody holds leaves the list as it was. */
  lemma {:induction false} RemoveAbsentId(ts: seq<Tab>, id: string)
    requires forall i :: 0 <= i < |ts| ==> ts[i].id != id
    ensures RemoveId(ts, id) == ts
    decreases |ts|
  {
    if |ts| > 0 {
      RemoveAbsentId(ts[1..], id);
      assert ts == [ts[0]] + ts[1..];
    }
  }

  /** With unique ids the id sits at one position, and closing it cuts out
      exactly that position. */
  lemma {:induction false} RemoveUniqueId(ts: seq<Tab>, k: int)
    requires IdsUnique(ts) && 0 <= k < |ts|
    ensures RemoveId(ts, ts[k].id) == ts[..k] + ts[k + 1..]
  {
    var id := ts[k].id;
    assert ts == ts[..k] + ([ts[k]] + ts[k + 1..]);
    RemoveIdConcat(ts[..k], [ts[k]] + ts[k + 1..], id);
    RemoveIdConcat([ts[k]], ts[k + 1..], id);
    RemoveAbsentId(ts[..k], id);
    RemoveAbsentId(ts[k + 1..], id);
    assert RemoveId([ts[k]], id) == RemoveId([], id);
  }

  /** Every survivor of a filter sits somewhere in the original list. */
  lemma RemoveIdFrom(ts: seq<Tab>, id: string, j: int)
    requires 0 <= j < |RemoveId(ts, id)|
    ensures exists m :: 0 <= m < |ts| && ts[m] == RemoveId(ts, id)[j]
  {
    assert RemoveId(ts, id)[j] in RemoveId(ts, id);
  }

  /** Filtering keeps display orders increasing. */
  lemma {:induction false} RemoveIdKeepsOrders(ts: seq<Tab>, id: string)
    requires OrdersIncreasing(ts)
    ensures OrdersIncreasing(RemoveId(ts, id))
    decreases |ts|
  {
    if |ts| > 0 {
      var tail := ts[1..];
      RemoveIdKeepsOrders(tail, id);
      var r := RemoveId(tail, id);
      if ts[0].id != id {
        forall j | 0 <= j < |r|
          ensures ts[0].order < r[j].order
        {
          RemoveIdFrom(tail, id, j);
          var m :| 0 <= m < |tail| && tail[m] == r[j];
          assert ts[m + 1] == r[j];
        }
      }
    }
  }

  /** Filtering keeps names unique. */
  lemma {:induction false} RemoveIdKeepsNames(ts: seq<Tab>, id: string)
    requires NamesUnique(ts)
    ensures NamesUnique(RemoveId(ts, id))
    decreases |ts|
  {
    if |ts| > 0 {
      var tail := ts[1..];
      RemoveIdKeepsNames(tail, id);
      var r := RemoveId(tail, id);
      if ts[0].id != id {
        forall j | 0 <= j < |r|
          ensures ts[0].name != r[j].name
        {
          RemoveIdFrom(tail, id, j);
          var m :| 0 <= m < |tail| && tail[m] == r[j];
          assert ts[m + 1] == r[j];
        }
      }
    }
  }

  /** Filtering keeps ids unique. */
  lemma {:induction false} RemoveIdKeepsIds(ts: seq<Tab>, id: string)
    requires IdsUnique(ts)
    ensures IdsUnique(RemoveId(ts, id))
    decreases |ts|
  {
    if |ts| > 0 {
      var tail := ts[1..];
      RemoveIdKeepsIds(tail, id);
      var r := RemoveId(tail, id);
      if ts[0].id != id {
        forall j | 0 <= j < |r|
          ensures ts[0].id != r[j].id
        {
          RemoveIdFrom(tail, id, j);
          var m :| 0 <= m < |tail| && tail[m] == r[j];
          assert ts[m + 1] == r[j];
        }
      }
    }
  }

  /** Filtering keeps each of the list invariants that held before. */
  lemma RemoveIdKeepsInvariants(ts: seq<Tab>, id: string)
    ensures OrdersIncreasing(ts) ==> OrdersIncreasing(RemoveId(ts, id))
    ensures NamesUnique(ts) ==> NamesUnique(RemoveId(ts, id))
    ensures IdsUnique(ts) ==> IdsUnique(RemoveId(ts, id))
  {
    if OrdersIncreasing(ts) { RemoveIdKeepsOrders(ts, id); }
    if NamesUnique(ts) { RemoveIdKeepsNames(ts, id); }
    if IdsUnique(ts) { RemoveIdKeepsIds(ts, id); }
  }

  /** Changing active flags alone keeps each list invariant. */
  lemma SameButFlagsKeeps(a: seq<Tab>, b: seq<Tab>)
    requires SameButFlags(a, b)
    ensures NamesUnique(a) ==> NamesUnique(b)
    ensures IdsUnique(a) ==> IdsUnique(b)
    ensures OrdersIncreasing(a) ==> OrdersIncreasing(b)
  {
    assert forall i :: 0 <= i < |a| ==>
      b[i].name == a[i].name && b[i].id == a[i].id && b[i].order == a[i].order;
  }

  /** The last tab carries the largest order when orders increase, so
      "last order + 1" is "largest order + 1". */
  lemma LastOrderIsMax(ts: seq<Tab>)
    requires OrdersIncreasing(ts) && |ts| > 0
    ensures forall i :: 0 <= i < |ts| - 1 ==> ts[i].order < ts[|ts| - 1].order
  {
  }

  /** Exactly one active tab, at `k`, is the same as the set of active
      positions being `{k}`. */
  lemma ExactlyOneActive(ts: seq<Tab>, k: int)
    requires 0 <= k < |ts|
    ensures (forall i :: 0 <= i < |ts| ==> (ts[i].active <==> i == k)) <==> ActiveIndices(ts) == {k}
  {
    if ActiveIndices(ts) == {k} {
      forall i | 0 <= i < |ts|
        ensures ts[i].active <==> i == k
      {
        assert ts[i].active <==> i in ActiveIndices(ts);
      }
    }
  }
}

=== FILE: text.dfy ===
/** The JavaScript string operations the editor and the session rely on.
    A string is a sequence of Unicode scalar values (`char`), so a position
    counts code points where JavaScript counts UTF-16 code units; the two
    agree on text without characters outside the Basic Multilingual Plane. */
module Text {

  /** `s.charAt(i)`: the one-unit string at `i`, or "" when `i` is outside `s`
      (negative positions included). */
  function CharAt(s: string, i: int): (r: string)
    ensures |r| <= 1
    ensures |r| == 1 <==> 0 <= i < |s|
    ensures |r| == 1 ==> r[0] == s[i]
  {
    if 0 <= i < |s| then [s[i]] else ""
  }

  /** The index `substring` actually uses: positions past the end are
      clamped to the length. */
  function Clamp(k: nat, s: string): (r: nat)
    ensures r <= |s|
    ensures k <= |s| ==> r == k
    ensures k > |s| ==> r == |s|
  {
    if k <= |s| then k else |s|
  }

  /** `c.repeat(n)` for a one-unit string `c`. */
  function Repeat(c: char, n: nat): (r: string)
    ensures |r| == n
    ensures forall i :: 0 <= i < n ==> r[i] == c
  {
    if n == 0 then "" else [c] + Repeat(c, n - 1)
  }

  /** `s.indexOf(c)`: the first position of `c` in `s`, or -1. */
  function IndexOf(s: string, c: char): (r: int)
    ensures -1 <= r < |s|
    ensures r == -1 <==> c !in s
    ensures 0 <= r ==> s[r] == c && c !in s[..r]
  {
    if |s| == 0 then -1
    else if s[0] == c then 0
    else
      var k := IndexOf(s[1..], c);
      if k == -1 then -1
      else
        assert s[..k + 1] == [s[0]] + s[1..][..k];
        k + 1
  }

  /** `pieces.join(sep)` for a non-empty list of pieces. */
  function Join(pieces: seq<string>, sep: char): (r: string)
    requires |pieces| >= 1
  {
    if |pieces| == 1 then pieces[0] else pieces[0] + [sep] + Join(pieces[1..], sep)
  }

  /** `s.split(sep)` for a one-unit separator: the maximal runs of `s`
      between separators, always at least one (possibly empty) piece. */
  function Split(s: string, sep: char): (r: seq<string>)
    ensures |r| >= 1
    ensures forall k :: 0 <= k < |r| ==> sep !in r[k]
    ensures |r| >= 2 <==> sep in s
    decreases |s|
  {
    var i := IndexOf(s, sep);
    if i == -1 then [s] else [s[..i]] + Split(s[i + 1..], sep)
  }

  /** Joining the pieces of a split gives back the string. */
  lemma {:induction false} JoinSplit(s: string, sep: char)
    ensures Join(Split(s, sep), sep) == s
    decreases |s|
  {
    var i := IndexOf(s, sep);
    if i == -1 {
      assert Split(s, sep) == [s];
    } else {
      var head := s[..i];
      var tail := s[i + 1..];
      assert s == head + [sep] + tail;
      SplitCons(head, sep, tail);
      JoinSplit(tail, sep);
      var pieces := [head] + Split(tail, sep);
      assert pieces[1..] == Split(tail, sep);
      assert Join(pieces, sep) == head + [sep] + Join(Split(tail, sep), sep);
    }
  }

  /** The first occurrence is where `c` sits with none before it. */
  lemma IndexOfAt(s: string, c: char, k: int)
    requires 0 <= k < |s| && s[k] == c && c !in s[..k]
    ensures IndexOf(s, c) == k
  {
  }

  /** Split on a string made of a separator-free head, the separator and a
      tail. */
  lemma SplitCons(head: string, sep: char, tail: string)
    requires sep !in head
    ensures Split(head + [sep] + tail, sep) == [head] + Split(tail, sep)
  {
    var s := head + [sep] + tail;
    assert s[..|head|] == head;
    IndexOfAt(s, sep, |head|);
    assert s[|head| + 1..] == tail;
  }

  /** Splitting undoes joining when no piece holds the separator. */
  lemma {:induction false} SplitJoin(pieces: seq<string>, sep: char)
    requires |pieces| >= 1
    requires forall k :: 0 <= k < |pieces| ==> sep !in pieces[k]
    ensures Split(Join(pieces, sep), sep) == pieces
    decreases |pieces|
  {
    if |pieces| > 1 {
      var tail := Join(pieces[1..], sep);
      assert Join(pieces, sep) == pieces[0] + [sep] + tail;
      SplitCons(pieces[0], sep, tail);
      SplitJoin(pieces[1..], sep);
      assert pieces == [pieces[0]] + pieces[1..];
    } else {
      assert Split(pieces[0], sep) == [pieces[0]];
    }
  }

  /** The first piece of a split is the prefix of `s` up to the first
      separator, or all of `s` when there is none. */
  lemma SplitHead(s: string, sep: char)
    ensures var h := Split(s, sep)[0];
      sep !in h && |h| <= |s| && s[..|h|] == h && (|h| == |s| || s[|h|] == sep)
  {
    var i := IndexOf(s, sep);
    if i == -1 {
      assert Split(s, sep) == [s];
    } else {
      assert Split(s, sep)[0] == s[..i];
    }
  }

  /** The second piece of a split is the first piece of what follows the
      first separator. */
  lemma SplitSecond(s: string, sep: char)
    requires sep in s
    ensures |Split(s, sep)| >= 2
    ensures Split(s, sep)[1] == Split(s[IndexOf(s, sep) + 1..], sep)[0]
  {
  }

  /** Where the second piece of a split sits: right after the first
      separator, followed by a separator or by the end. */
  lemma SplitSecondPosition(s: string, sep: char)
    requires sep in s
    ensures |Split(s, sep)| >= 2
    ensures var p := IndexOf(s, sep) + 1;
      var piece := Split(s, sep)[1];
      && sep !in piece
      && p + |piece| <= |s|
      && s[p..p + |piece|] == piece
      && (p + |piece| == |s| || s[p + |piece|] == sep)
  {
    var p := IndexOf(s, sep) + 1;
    var rest := s[p..];
    SplitSecond(s, sep);
    var piece := Split(rest, sep)[0];
    SplitHead(rest, sep);
    assert s[p..p + |piece|] == rest[..|piece|];
    assert p + |piece| < |s| ==> s[p + |piece|] == rest[|piece|];
  }
}

=== FILE: wrappers.dfy ===
/** Optional values: JavaScript's `undefined` beside a real value. */
module Wrappers {

  datatype Option<+T> = None | Some(value: T) {

    /** The value, or `default` when there is none (JavaScript's `??`). */
    function GetOr(default: T): T {
      match this
      case Some(v) => v
      case None => default
    }
  }
}
